=== FILE: README.md ===
# Snake simulation — a Dafny model

This project models the discrete simulation of the two browser snake games in
`script.js` and `script.ts`. Both run a tick-based state machine on a 20 × 20
grid of integer cells: a 400-pixel canvas cut into 20-pixel cells.

- `script.js` runs a cohort of five snakes that share one food cell. Each tick
  offers every live snake a random heading, which it refuses if it is an exact
  U-turn. Each live snake then moves one cell, and a snake that collides with
  a wall or with itself dies. A snake whose head lands on the food grows on
  its next move, and the food is drawn again. When every snake is dead, a new
  generation of five snakes is built.
- `script.ts` runs one snake that never changes heading. A collision resets
  the game. Eating is broken: the constructor stores `false` in `this.grow`,
  which hides the `grow` method, so `snake.grow()` raises a TypeError. That
  error escapes `gameLoop` before the next tick is scheduled.

Modules:

- `Oracle` (oracle.dfy): `Math.random()` as a stream of reals in [0, 1).
  `Math.floor(Math.random() * n)` is modelled as `RandomBelow`.
- `Grid` (grid.dfy): cells, board bounds, the four headings, `randomDirection`
  and `Food.randomPosition`.
- `Body` (body.dfy): how a body moves, the collision rule, and the collision
  scan loop. Both scripts share these.
- `CohortSnake` and `Cohort` (cohort_snake.dfy, cohort.dfy): the `Snake`
  class and the controller of `script.js`.
- `SoloSnake` and `Solo` (solo_snake.dfy, solo.dfy): the `Snake` class and the
  controller of `script.ts` as written.
- `SoloFixed` (solo_fixed.dfy): the `script.ts` controller with a working
  `grow`.

Randomness is a parameter. Each step function takes an `Oracle.Rng`, which is
an endless stream of draws, each one a real number in [0, 1). It returns the
stream it leaves. Draws are consumed in the order the scripts call
`Math.random()`:

- one draw per live snake for its heading;
- two draws for each new food cell, column first.

## Model

| member | source | states |
|---|---|---|
| Oracle.RandomBelow | script.js:88-89 | `Math.floor(Math.random() * n)` always lies in [0, n) |
| Oracle.RandomBelowCoversAll | script.js:88-89 | every index in [0, n) is produced by some draw |
| Grid.RandomDirection | script.js:54-62 | `randomDirection` returns one of the four listed unit headings |
| Grid.RandomDirectionCoversAll | script.js:54-62 | each of the four headings is returned for some draw |
| Grid.RandomPosition | script.js:87-91 | `Food.randomPosition` returns a cell inside [0, columns) × [0, rows) |
| Grid.RandomPositionCoversAll | script.ts:67-71 | every board cell is a possible food position, so food may appear under a snake |
| Grid.DrawPosition | script.js:82-91 | `new Food()` takes exactly the next two draws, the first choosing the column and the second the row (`RandomPosition` of the two), and places the food on the board |
| Body.CheckCollision | script.js:64-75 | the scan loop answers true exactly when the head is off the board or equals some body cell at index 1 or later |
| Body.Advance | script.js:30-40 | the new head is the old head plus the heading; the rest is a prefix of the old body; the length grows by one only when the tail is kept |
| Body.AdvanceKeepsSound | script.js:34-44 | after a move, an in-bounds, overlap-free body stays so exactly when the collision check does not fire |
| Body.VacatedTail | script.js:34-44 | the tail is popped before the check, so moving into the cell it vacates is no collision; with growth pending it is one |
| CohortSnake.New | script.js:20-25 | a new snake is one live cell at (10, 10), heading (1, 0), with no growth pending |
| CohortSnake.Update | script.js:27-45 | a dead snake is unchanged; a live one gets head = old head + heading, keeps the old body minus the tail unless growth was pending, clears the flag, and stays alive iff the new head is in bounds and not on a later cell; alive never becomes true again |
| CohortSnake.UpdateKeepsValid | script.js:27-45 | a live snake's cells stay in bounds and pairwise distinct across `update` |
| CohortSnake.ChangeDirection | script.js:47-52 | the exact reverse of the heading is refused; any other heading is taken; body and flags are unchanged |
| CohortSnake.ChangeDirectionNeverReverses | script.js:47-52 | for a unit heading, the heading is replaced iff the offer is not its reverse, and the result is never the reverse of the old heading |
| CohortSnake.Grow | script.js:77-79 | `grow` only raises the pending flag |
| CohortSnake.GrowTakesEffectOnNextUpdate | script.js:34-38 | after `grow`, the next `update` makes a live snake exactly one cell longer, keeps the whole old body behind the head, and clears the flag |
| CohortSnake.UpdateLeavesNeckBehind | script.js:30-40 | after a move, the second cell is the cell the head just left |
| CohortSnake.NoTurnIntoNeck | script.js:47-52 | with the neck behind the head, no accepted heading sends the head onto the neck |
| Cohort.Setup | script.js:94-102 | `setup` builds five live snakes at (10, 10) heading (1, 0) with no growth pending, places the food on the cell `new Food()` draws from the stream, and adds exactly 1 to `generation` |
| Cohort.Start | script.js:150 | the one `setup()` call, made while `generation` is still 0 (script.js:17), starts the program at generation 1 in a world satisfying the cohort invariant |
| Cohort.TakeTurn | script.js:120-128 | a live snake moves; if its head lands on the food it gets growth pending and the food is drawn again, otherwise the food is kept; a snake dead before its turn is untouched |
| Cohort.SweepAll | script.js:120-129 | every snake's body and liveness after the sweep are those of its own `update`; dead snakes are untouched; each meal takes exactly two draws; with no meal the food stays |
| Cohort.SweepIsPositional | script.js:120-129 | snake i after the sweep is exactly what `TakeTurn` makes of it on the food cell and stream left by the turns of the snakes before it, so a live snake landing on that food gets growth pending and the food is drawn again |
| Cohort.Update | script.js:119-136 | the cohort is rebuilt by `setup`, with generation + 1, iff every snake is dead after the sweep. Otherwise the result is exactly the sweep's snakes, food and stream, at the same generation, with some snake alive |
| Cohort.SteerOne | script.js:140-142 | a live snake takes the next draw and is offered the heading it selects; a dead snake draws nothing and is unchanged |
| Cohort.Steer | script.js:139-143 | steering takes exactly one draw per live snake and none for dead ones; bodies, liveness and growth flags are unchanged and dead snakes are untouched |
| Cohort.SteerIsPositional | script.js:139-143 | snake i is steered exactly as if it were alone, on the random stream left by steering the snakes before it |
| Cohort.SteerDrawsInOrder | script.js:139-143 | snake i is steered exactly as if it were alone, on the random stream advanced by one draw for each live snake before it |
| Cohort.SteerUsesOwnDraw | script.js:139-143 | the live snake at index i gets `ChangeDirection` applied to the heading from the draw that follows one draw for each live snake before it |
| Cohort.SteerKeepsValid | script.js:139-143 | steering keeps every valid snake valid, and its new heading is never the reverse of its old one |
| Cohort.SteerWithin | script.js:139-143 | steering changes headings only, so no snake is added or removed, revives, shrinks or, when dead, changes |
| Cohort.UpdateKeepsInv | script.js:119-136 | `update` keeps the cohort invariant: five snakes, each valid, food on the board, generation at least 1 |
| Cohort.UpdateWithin | script.js:119-136 | an `update` that does not start a new generation adds or removes no snake, revives none, freezes the dead and shrinks no body |
| Cohort.Tick | script.js:138-146 | one `gameLoop` pass keeps the cohort invariant: five snakes, live snakes sound, food on the board; the generation grows by 0 or 1, and when it stays, no snake revives, dead snakes are frozen and no body shrinks |
| Cohort.TickMoves | script.js:138-146 | within a generation, every snake alive before the pass takes the heading steering gave it, never the reverse of its old one, moves its head one cell along that heading, and grows by exactly one cell when growth was pending and not otherwise |
| Cohort.Run | script.js:138-151 | any number of ticks keeps the invariant and never lowers the generation; while the generation is unchanged, no snake revives, dead snakes stay frozen and no body shrinks |
| Cohort.DyingSnakeStillEats | script.js:120-127 | for example, a live five-cell snake that turns into its own fourth cell, where the food lies, dies there and still gets growth pending and a new food draw; the general rule is `Cohort.TakeTurn`'s ensures |
| SoloSnake.New | script.ts:20-24 | the snake starts as the single cell (10, 10), heading (1, 0), flag down |
| SoloSnake.Update | script.ts:26-38 | with no liveness guard: head = old head + heading, length + 1 iff the flag was up, the rest a prefix of the old body, flag down |
| SoloSnake.ChangeDirection | script.ts:40-42 | any heading is taken, the reverse included; body and flag unchanged |
| SoloSnake.CheckCollision | script.ts:48-59 | the same collision rule: head off the board or equal to some body cell at index 1 or later |
| SoloSnake.UTurnIsFatal | script.ts:40-42 | an accepted U-turn kills a snake of three or more cells whose neck is behind the head |
| SoloSnake.UTurnOfTwoCellsIsSafe | script.ts:26-42 | a sound two-cell snake with the flag down survives a U-turn, because its tail is popped first |
| SoloSnake.UTurnOfTwoGrowingCellsIsFatal | script.ts:26-42 | with the flag up, the tail is kept and the same U-turn is a collision |
| Solo.Setup | script.ts:74-79 | `setup` builds a fresh snake at (10, 10) heading (1, 0), places the food on the cell `new Food()` draws from the stream, and adds exactly 1 to `generation` |
| Solo.Update | script.ts:93-104 | move first; the tick crashes iff the new head is on the food; otherwise the game resets, via `setup` with generation + 1, iff the moved body collides; otherwise the moved snake is kept |
| Solo.Tick | script.ts:106-110 | a running game keeps its invariant (a single in-bounds cell, flag never raised); a crashed game stays crashed |
| Solo.Run | script.ts:106-113 | over any number of ticks the invariant holds, a crash is final, and the generation never drops |
| Solo.Start | script.ts:112 | the one `setup()` call, made while `generation` is still 0 (script.ts:16), starts the program running at generation 1 in a world satisfying the invariant |
| Solo.StraightRun | script.ts:93-110 | from a fresh snake, after k ticks short of the horizon the head is at (10 + k, 10) and nothing else has changed |
| Solo.StraightRunCrashes | script.ts:93-104 | when the food lies on row 10 right of the start, the run crashes on `snake.grow()` on the tick that reaches it |
| Solo.StraightRunResets | script.ts:93-104 | otherwise tick 10 takes the head to x = 20 = `columns`, and the game is reset by `setup` with generation + 1 |
| SoloFixed.Grow | script.ts:44-46 | the intended `grow` raises the flag only |
| SoloFixed.Update | script.ts:93-104 | with a working `grow`: reset iff the moved body collides, and a reset is exactly `setup()` on the stream left after the meal's food draw, if there was a meal; otherwise the flag is up iff the head is on the food, and the food is redrawn exactly then; a sound snake stays sound |
| SoloFixed.MealGrowsSnake | script.ts:31-37 | a meal raises the flag, and the next tick that does not reset the game makes the snake exactly one cell longer |

## Left out

- Rendering and the page: `getElementById`, `getContext`, both `draw` functions, the `innerText` writes and the live-snake count shown on the page (script.js:1-4, 101, 104-117, 135; script.ts:2-4, 78, 81-91).
- `setTimeout` in `gameLoop`: one tick is a function, and repeated ticks are `Run`.
- The distribution of `Math.random()`: only its range [0, 1) is kept.
- Oracle.RandomBelow: `Math.random() * n` is computed on exact reals, not as a rounded double. The result still lies in [0, n), and every index can still be reached. At a cell boundary, though, one draw can give an index one lower than JavaScript would: for the largest double below 0.15, `r * 20` rounds to 3.0 in JavaScript, while the exact floor is 2. This changes no possible run, because the stream of draws is unconstrained, so the set of reachable runs is the same.
- Pixel scaling: only `rows = columns = canvasSize / scale = 20` matters.
- TypeScript typing: script.ts has no type annotations and its field/method clash would not type-check. It is modelled as the JavaScript it runs as.
- Learning: neither script has a learned policy, an exploration rate or a value table. The random heading in script.js is the only policy.
- Cohort.SweepAll: its own contract does not say which food cell each snake saw during the sweep. Cohort.SweepIsPositional states that, snake by snake.

Two behaviours are modelled as the code does them:

- In script.js the controller tests liveness only before a snake moves. A snake that dies on the food cell still eats (`Cohort.DyingSnakeStillEats`).
- Food is drawn over the whole board, including cells under a snake.

## Findings

| source | as written | input that shows it | evidently intended | confidence | as-written member | corrected member |
|---|---|---|---|---|---|---|
| script.ts:97 | the constructor's `this.grow = false` (script.ts:23) creates an own field that hides the `grow` method (script.ts:44-46), so `snake.grow()` raises a TypeError, `gameLoop` stops before scheduling the next tick, and the snake can never grow | a fresh game whose food is at (11, 10): the first tick's head lands on the food and the call fails | `grow()` raises the flag and the snake is one cell longer after its next move | high; not executed | Solo.StraightRunCrashes | SoloFixed.MealGrowsSnake |

=== FILE: body.dfy ===
/** A snake's body as both scripts keep it: a list of cells, head first.
    Moving pushes a new head at the front and pops the tail unless the snake
    is growing; the collision check runs on the body after the move. */
module Body {
  import opened Grid

  /** No cell occurs twice. */
  predicate Distinct(cells: seq<Point>) {
    forall i, j :: 0 <= i < j < |cells| ==> cells[i] != cells[j]
  }

  predicate AllInBounds(cells: seq<Point>) {
    forall i :: 0 <= i < |cells| ==> InBounds(cells[i])
  }

  /** The shape of a living snake: non-empty, on the board, never overlapping itself. */
  predicate Sound(body: seq<Point>) {
    |body| >= 1 && AllInBounds(body) && Distinct(body)
  }

  /** The collision rule: the head left the board or sits on another cell of the body. */
  predicate Collides(body: seq<Point>)
    requires |body| >= 1
  {
    !InBounds(body[0]) || body[0] in body[1..]
  }

  /** `checkCollision`: compares the head with every later cell, then tests the walls. */
  method CheckCollision(body: seq<Point>) returns (hit: bool)
    requires |body| >= 1
    ensures hit <==> Collides(body)
  {
    var head := body[0];
    var i := 1;
    while i < |body|
      invariant 1 <= i <= |body|
      invariant forall k :: 1 <= k < i ==> body[k] != head
    {
      if head.x == body[i].x && head.y == body[i].y {
        assert body[1..][i - 1] == head;
        return true;
      }
      i := i + 1;
    }
    if head.x < 0 || head.x >= Columns || head.y < 0 || head.y >= Rows {
      return true;
    }
    assert head !in body[1..] by {
      forall k | 0 <= k < |body[1..]| ensures body[1..][k] != head {
        assert body[1..][k] == body[k + 1];
      }
    }
    return false;
  }

  /** The body after one move along `d`: the new head in front of the old
      body, whose last cell is dropped unless `keepTail`. */
  function Advance(body: seq<Point>, d: Point, keepTail: bool): (r: seq<Point>)
    requires |body| >= 1
    ensures |r| == if keepTail then |body| + 1 else |body|
    ensures r[0] == Add(body[0], d)
    ensures r[1..] <= body
  {
    [Add(body[0], d)] + (if keepTail then body else body[..|body| - 1])
  }

  /** A prefix of a sound body is on the board and free of repeats. */
  lemma PrefixKeepsShape(body: seq<Point>, p: seq<Point>)
    requires AllInBounds(body) && Distinct(body)
    requires p <= body
    ensures AllInBounds(p) && Distinct(p)
  {
    forall i | 0 <= i < |p| ensures p[i] == body[i] {
    }
  }

  /** After a move a sound body stays sound exactly when the collision rule
      does not fire, so the rule is the whole of what keeps a snake in shape. */
  lemma AdvanceKeepsSound(body: seq<Point>, d: Point, keepTail: bool)
    requires Sound(body)
    ensures Sound(Advance(body, d, keepTail)) <==> !Collides(Advance(body, d, keepTail))
  {
    var r := Advance(body, d, keepTail);
    PrefixKeepsShape(body, r[1..]);
    if !Collides(r) {
      forall i | 0 <= i < |r| ensures InBounds(r[i]) {
        if i > 0 { assert r[i] == r[1..][i - 1]; }
      }
      forall i, j | 0 <= i < j < |r| ensures r[i] != r[j] {
        assert r[j] == r[1..][j - 1];
        if i > 0 { assert r[i] == r[1..][i - 1]; }
      }
    } else if InBounds(r[0]) {
      var k :| 0 <= k < |r[1..]| && r[1..][k] == r[0];
      assert r[k + 1] == r[0];
    }
  }

  /** Moving into the cell the tail is leaving is safe when the tail is popped,
      and a collision when the snake grows on that move. */
  lemma VacatedTail(body: seq<Point>, d: Point)
    requires Sound(body) && |body| >= 2
    requires Add(body[0], d) == body[|body| - 1]
    ensures !Collides(Advance(body, d, false))
    ensures Collides(Advance(body, d, true))
  {
    var r := Advance(body, d, false);
    var last := |body| - 1;
    assert r[1..] == body[..last];
    assert r[0] !in body[..last] by {
      forall k | 0 <= k < last ensures body[..last][k] != body[last] {
        assert body[..last][k] == body[k];
      }
    }
    var q := Advance(body, d, true);
    assert q[1..] == body;
    assert q[1..][last] == q[0];
  }
}

=== FILE: cohort.dfy ===
/** The controller of script.js: a cohort of five snakes sharing one food
    cell. Each tick turns every live snake at random, moves each live snake in
    cohort order, lets it eat, and starts a new generation once all are dead. */
module Cohort {
  import opened Oracle
  import opened Grid
  import opened Body
  import opened CohortSnake

  const NumSnakes: nat := 5

  /** The program's globals `snakes`, `food` and `generation`. */
  datatype World = World(snakes: seq<Snake>, food: Point, generation: int)

  /** A world together with the random stream still to be consumed. */
  datatype Step = Step(world: World, rng: Rng)

  /** One snake's turn within `update`: the snake and the food afterwards. */
  datatype Turn = Turn(snake: Snake, food: Point, rng: Rng)

  /** The whole cohort after the `forEach` of `update`. */
  datatype Sweep = Sweep(snakes: seq<Snake>, food: Point, rng: Rng)

  predicate HasBodies(snakes: seq<Snake>) {
    forall i :: 0 <= i < |snakes| ==> |snakes[i].body| >= 1
  }

  /** What holds of every world the program reaches. */
  predicate Inv(w: World) {
    && |w.snakes| == NumSnakes
    && (forall i :: 0 <= i < |w.snakes| ==> Valid(w.snakes[i]))
    && InBounds(w.food)
    && w.generation >= 1
  }

  /** `setup`: five fresh snakes, a fresh food cell, the next generation number. */
  function Setup(generation: int, g: Rng): (r: Step)
    ensures |r.world.snakes| == NumSnakes
    ensures forall i :: 0 <= i < |r.world.snakes| ==>
      && r.world.snakes[i].alive
      && r.world.snakes[i].body == [Point(10, 10)]
      && r.world.snakes[i].direction == Point(1, 0)
      && !r.world.snakes[i].growPending
    ensures r.world.generation == generation + 1
    ensures r.world.food == DrawPosition(g).0 && InBounds(r.world.food)
    ensures r.rng.draw == g.draw && r.rng.next == g.next + 2
  {
    var (food, g1) := DrawPosition(g);
    Step(World(seq(NumSnakes, _ => New()), food, generation + 1), g1)
  }

  /** The program's start: `generation` is 0 and `setup` runs once. */
  function Start(g: Rng): (r: Step)
    ensures Inv(r.world) && r.world.generation == 1
  {
    Setup(0, g)
  }

  /** The body of the `forEach` in `update` for one snake. Liveness is checked
      before the move only, so a snake that dies on the food cell still eats. */
  function TakeTurn(s: Snake, food: Point, g: Rng): (r: Turn)
    requires |s.body| >= 1
    ensures r.snake.body == CohortSnake.Update(s).body
    ensures r.snake.alive == CohortSnake.Update(s).alive
    ensures r.snake.direction == s.direction
    ensures !s.alive ==> r.snake == s && r.food == food && r.rng == g
    ensures s.alive ==> (r.snake.growPending <==> r.snake.body[0] == food)
    ensures s.alive && r.snake.body[0] == food ==> (r.food, r.rng) == DrawPosition(g)
    ensures !(s.alive && r.snake.body[0] == food) ==> r.food == food && r.rng == g
  {
    if s.alive then
      var moved := CohortSnake.Update(s);
      if moved.body[0] == food then
        var (f, g1) := DrawPosition(g);
        Turn(Grow(moved), f, g1)
      else
        Turn(moved, food, g)
    else
      Turn(s, food, g)
  }

  /** The number of snakes that were alive and ate during a sweep. */
  function Meals(before: seq<Snake>, after: seq<Snake>): nat
    requires |before| == |after|
  {
    if |before| == 0 then 0
    else (if before[0].alive && after[0].growPending then 1 else 0) + Meals(before[1..], after[1..])
  }

  /** The `forEach` of `update`: every snake takes its turn in cohort order,
      each seeing the food as the previous turns left it. */
  function SweepAll(snakes: seq<Snake>, food: Point, g: Rng): (r: Sweep)
    requires HasBodies(snakes)
    ensures |r.snakes| == |snakes|
    ensures forall i :: 0 <= i < |snakes| ==>
      && r.snakes[i].body == CohortSnake.Update(snakes[i]).body
      && r.snakes[i].alive == CohortSnake.Update(snakes[i]).alive
      && r.snakes[i].direction == snakes[i].direction
    ensures forall i :: 0 <= i < |snakes| && !snakes[i].alive ==> r.snakes[i] == snakes[i]
    ensures InBounds(food) ==> InBounds(r.food)
    ensures r.rng.draw == g.draw
    ensures r.rng.next == g.next + 2 * Meals(snakes, r.snakes)
    ensures Meals(snakes, r.snakes) == 0 ==> r.food == food
    decreases |snakes|
  {
    if |snakes| == 0 then Sweep([], food, g)
    else
      var t := TakeTurn(snakes[0], food, g);
      var rest := SweepAll(snakes[1..], t.food, t.rng);
      var r := Sweep([t.snake] + rest.snakes, rest.food, rest.rng);
      assert r.snakes[1..] == rest.snakes;
      r
  }

  /** A sweep is the first snake's turn followed by the sweep of the rest. */
  lemma SweepFirst(snakes: seq<Snake>, food: Point, g: Rng)
    requires HasBodies(snakes) && |snakes| >= 1
    ensures HasBodies(snakes[1..])
    ensures var t := TakeTurn(snakes[0], food, g);
      var rest := SweepAll(snakes[1..], t.food, t.rng);
      && SweepAll(snakes, food, g).snakes == [t.snake] + rest.snakes
      && SweepAll(snakes, food, g).food == rest.food
      && SweepAll(snakes, food, g).rng == rest.rng
  {
    assert forall j :: 0 <= j < |snakes| - 1 ==> snakes[1..][j] == snakes[j + 1];
  }

  /** Every prefix of a cohort with bodies has bodies. */
  lemma PrefixHasBodies(snakes: seq<Snake>, i: nat)
    requires HasBodies(snakes) && i <= |snakes|
    ensures HasBodies(snakes[..i])
  {
    assert forall j :: 0 <= j < i ==> snakes[..i][j] == snakes[j];
  }

  /** Sweeping the first `i` snakes leaves the food and stream that the
      first turn followed by a sweep of the next `i - 1` snakes leaves. */
  lemma SweepPrefixFirst(snakes: seq<Snake>, food: Point, g: Rng, i: nat)
    requires HasBodies(snakes) && 1 <= i <= |snakes|
    ensures HasBodies(snakes[..i]) && HasBodies(snakes[1..][..i - 1])
    ensures var t := TakeTurn(snakes[0], food, g);
      var before := SweepAll(snakes[..i], food, g);
      var inner := SweepAll(snakes[1..][..i - 1], t.food, t.rng);
      before.food == inner.food && before.rng == inner.rng
  {
    PrefixHasBodies(snakes, i);
    SweepFirst(snakes[..i], food, g);
    assert snakes[..i][0] == snakes[0];
    assert snakes[..i][1..] == snakes[1..][..i - 1];
  }

  /** The sweep is positional: snake `i` takes exactly the turn `TakeTurn`
      gives it on the food cell and stream left by the turns before it. */
  lemma {:induction false} SweepIsPositional(snakes: seq<Snake>, food: Point, g: Rng, i: nat)
    requires HasBodies(snakes) && i < |snakes|
    ensures HasBodies(snakes[..i])
    ensures var before := SweepAll(snakes[..i], food, g);
      SweepAll(snakes, food, g).snakes[i] == TakeTurn(snakes[i], before.food, before.rng).snake
    decreases i
  {
    PrefixHasBodies(snakes, i);
    SweepFirst(snakes, food, g);
    var t := TakeTurn(snakes[0], food, g);
    if i == 0 {
      assert snakes[..0] == [];
    } else {
      SweepIsPositional(snakes[1..], t.food, t.rng, i - 1);
      SweepPrefixFirst(snakes, food, g, i);
      assert snakes[1..][i - 1] == snakes[i];
    }
  }

  /** The controller's `update`: sweep the cohort, then rebuild it if every
      snake is dead. */
  function Update(w: World, g: Rng): (r: Step)
    requires HasBodies(w.snakes)
    ensures var everyoneDead := forall i :: 0 <= i < |w.snakes| ==> !CohortSnake.Update(w.snakes[i]).alive;
      && (everyoneDead ==> r == Setup(w.generation, SweepAll(w.snakes, w.food, g).rng))
      && (!everyoneDead ==> r.world.generation == w.generation)
    ensures var sw := SweepAll(w.snakes, w.food, g);
      r.world.generation == w.generation ==>
        r.world == World(sw.snakes, sw.food, w.generation) && r.rng == sw.rng
    ensures r.world.generation == w.generation || r.world.generation == w.generation + 1
    ensures r.world.generation == w.generation ==>
      && |r.world.snakes| == |w.snakes|
      && (exists i :: 0 <= i < |r.world.snakes| && r.world.snakes[i].alive)
      && (forall i :: 0 <= i < |w.snakes| ==>
            r.world.snakes[i].body == CohortSnake.Update(w.snakes[i]).body
            && r.world.snakes[i].alive == CohortSnake.Update(w.snakes[i]).alive)
  {
    var sw := SweepAll(w.snakes, w.food, g);
    if forall i :: 0 <= i < |sw.snakes| ==> !sw.snakes[i].alive then
      Setup(w.generation, sw.rng)
    else
      Step(World(sw.snakes, sw.food, w.generation), sw.rng)
  }

  /** The number of live snakes, each of which takes one draw when steered. */
  function LiveCount(snakes: seq<Snake>): nat {
    if |snakes| == 0 then 0
    else (if snakes[0].alive then 1 else 0) + LiveCount(snakes[1..])
  }

  /** One snake's part of the steering step: a live snake draws a heading
      and is offered it; a dead snake draws nothing. */
  function SteerOne(s: Snake, g: Rng): (r: (Snake, Rng))
    ensures s.alive ==> r.0 == ChangeDirection(s, RandomDirection(g.draw(g.next)))
    ensures !s.alive ==> r.0 == s
    ensures r.1.draw == g.draw && r.1.next == g.next + (if s.alive then 1 else 0)
  {
    if s.alive then
      var (d, g1) := Next(g);
      (ChangeDirection(s, RandomDirection(d)), g1)
    else (s, g)
  }

  /** The steering step of `gameLoop`: every live snake, in cohort order,
      draws a heading and is offered it; dead snakes draw nothing and are
      untouched. */
  function Steer(snakes: seq<Snake>, g: Rng): (r: (seq<Snake>, Rng))
    ensures |r.0| == |snakes|
    ensures forall i :: 0 <= i < |snakes| ==>
      && r.0[i].body == snakes[i].body
      && r.0[i].alive == snakes[i].alive
      && r.0[i].growPending == snakes[i].growPending
    ensures forall i :: 0 <= i < |snakes| && !snakes[i].alive ==> r.0[i] == snakes[i]
    ensures r.1.draw == g.draw && r.1.next == g.next + LiveCount(snakes)
    decreases |snakes|
  {
    if |snakes| == 0 then ([], g)
    else
      var first := SteerOne(snakes[0], g);
      var rest := Steer(snakes[1..], first.1);
      var r := ([first.0] + rest.0, rest.1);
      assert forall i :: 1 <= i < |snakes| ==> r.0[i] == rest.0[i - 1] && snakes[i] == snakes[1..][i - 1];
      r
  }

  /** Steering is the first snake's step followed by the steering of the rest. */
  lemma SteerFirst(snakes: seq<Snake>, g: Rng)
    requires |snakes| >= 1
    ensures var first := SteerOne(snakes[0], g);
      && Steer(snakes, g).0 == [first.0] + Steer(snakes[1..], first.1).0
      && Steer(snakes, g).1 == Steer(snakes[1..], first.1).1
  {
  }

  /** Steering is positional: snake `i` is steered exactly as if it were
      alone, on the stream left by steering the snakes before it. */
  lemma {:induction false} SteerIsPositional(snakes: seq<Snake>, g: Rng, i: nat)
    requires i < |snakes|
    ensures Steer(snakes, g).0[i] == SteerOne(snakes[i], Steer(snakes[..i], g).1).0
    decreases i
  {
    SteerFirst(snakes, g);
    var first := SteerOne(snakes[0], g);
    if i == 0 {
      assert snakes[..0] == [];
    } else {
      SteerIsPositional(snakes[1..], first.1, i - 1);
      SteerFirst(snakes[..i], g);
      assert snakes[..i][0] == snakes[0];
      assert snakes[..i][1..] == snakes[1..][..i - 1];
      assert snakes[1..][i - 1] == snakes[i];
    }
  }

  /** Snake `i` is steered on the stream advanced by one draw per live
      snake before it. */
  lemma SteerDrawsInOrder(snakes: seq<Snake>, g: Rng, i: nat)
    requires i < |snakes|
    ensures Steer(snakes, g).0[i] == SteerOne(snakes[i], Rng(g.draw, g.next + LiveCount(snakes[..i]))).0
  {
    SteerIsPositional(snakes, g, i);
    assert Steer(snakes[..i], g).1 == Rng(g.draw, g.next + LiveCount(snakes[..i]));
  }

  /** Which draw steers which snake: the live snake at index `i` is offered
      the heading selected by the draw after one per live snake before it. */
  lemma SteerUsesOwnDraw(snakes: seq<Snake>, g: Rng, i: nat)
    requires i < |snakes| && snakes[i].alive
    ensures Steer(snakes, g).0[i] ==
      ChangeDirection(snakes[i], RandomDirection(g.draw(g.next + LiveCount(snakes[..i]))))
  {
    var h := Rng(g.draw, g.next + LiveCount(snakes[..i]));
    assert Steer(snakes, g).0[i] == SteerOne(snakes[i], h).0 by { SteerDrawsInOrder(snakes, g, i); }
  }

  /** Steering keeps every valid snake valid and never turns it into the
      reverse of its previous heading. */
  lemma SteerKeepsValid(snakes: seq<Snake>, g: Rng)
    ensures forall i :: 0 <= i < |snakes| && Valid(snakes[i]) ==>
      Valid(Steer(snakes, g).0[i]) && Steer(snakes, g).0[i].direction != Negate(snakes[i].direction)
  {
    forall i | 0 <= i < |snakes| && Valid(snakes[i])
      ensures Valid(Steer(snakes, g).0[i]) && Steer(snakes, g).0[i].direction != Negate(snakes[i].direction)
    {
      SteerIsPositional(snakes, g, i);
    }
  }

  /** `update` keeps the cohort invariant. */
  lemma UpdateKeepsInv(w: World, g: Rng)
    requires Inv(w)
    ensures Inv(Update(w, g).world)
  {
    var sw := SweepAll(w.snakes, w.food, g);
    if Update(w, g).world.generation == w.generation {
      forall i | 0 <= i < |sw.snakes| ensures Valid(sw.snakes[i]) {
        UpdateKeepsValid(w.snakes[i]);
      }
    }
  }

  /** How a cohort may change within one generation: no snake is added or
      removed, a dead snake is frozen, no snake comes back to life, and no
      body gets shorter. */
  predicate Within(before: World, after: World) {
    && |after.snakes| == |before.snakes|
    && forall i :: 0 <= i < |before.snakes| ==>
      && (!before.snakes[i].alive ==> after.snakes[i] == before.snakes[i])
      && (after.snakes[i].alive ==> before.snakes[i].alive)
      && |after.snakes[i].body| >= |before.snakes[i].body|
  }

  /** Every world is within its own generation. */
  lemma WithinReflexive(w: World)
    ensures Within(w, w)
  {
  }

  /** Staying within a generation composes. */
  lemma WithinComposes(a: World, b: World, c: World)
    requires Within(a, b) && Within(b, c)
    ensures Within(a, c)
  {
    forall i | 0 <= i < |a.snakes|
      ensures !a.snakes[i].alive ==> c.snakes[i] == a.snakes[i]
      ensures c.snakes[i].alive ==> a.snakes[i].alive
      ensures |c.snakes[i].body| >= |a.snakes[i].body|
    {
      assert |c.snakes[i].body| >= |b.snakes[i].body| >= |a.snakes[i].body|;
    }
  }

  /** Steering stays within the generation: it changes headings only. */
  lemma SteerWithin(w: World, g: Rng)
    ensures Within(w, w.(snakes := Steer(w.snakes, g).0))
  {
  }

  /** An `update` that does not start a new generation stays within it. */
  lemma UpdateWithin(w: World, g: Rng)
    requires HasBodies(w.snakes)
    ensures Update(w, g).world.generation == w.generation ==> Within(w, Update(w, g).world)
  {
  }

  /** One pass of `gameLoop` without drawing and scheduling: steer, then update. */
  function Tick(w: World, g: Rng): (r: Step)
    requires HasBodies(w.snakes)
    ensures Inv(w) ==> Inv(r.world)
    ensures r.world.generation == w.generation || r.world.generation == w.generation + 1
    ensures r.world.generation == w.generation ==> Within(w, r.world)
  {
    var (steered, g1) := Steer(w.snakes, g);
    var r := Update(w.(snakes := steered), g1);
    SteerWithin(w, g);
    UpdateWithin(w.(snakes := steered), g1);
    assert r.world.generation == w.generation ==> Within(w, r.world) by {
      if r.world.generation == w.generation {
        WithinComposes(w, w.(snakes := steered), r.world);
      }
    }
    assert Inv(w) ==> Inv(r.world) by {
      if Inv(w) {
        SteerKeepsValid(w.snakes, g);
        UpdateKeepsInv(w.(snakes := steered), g1);
      }
    }
    r
  }

  /** What a pass of `gameLoop` does to each live snake within a
      generation: it is steered, then moves one cell along its new heading,
      never the reverse of its old one, and grows by one cell exactly when
      growth was pending. */
  lemma TickMoves(w: World, g: Rng)
    requires Inv(w)
    ensures var r := Tick(w, g);
      r.world.generation == w.generation ==>
        forall i :: 0 <= i < |w.snakes| && w.snakes[i].alive ==>
          && r.world.snakes[i].body[0] == Add(w.snakes[i].body[0], r.world.snakes[i].direction)
          && r.world.snakes[i].direction == Steer(w.snakes, g).0[i].direction
          && r.world.snakes[i].direction != Negate(w.snakes[i].direction)
          && |r.world.snakes[i].body| == |w.snakes[i].body| + (if w.snakes[i].growPending then 1 else 0)
  {
    SteerKeepsValid(w.snakes, g);
  }

  /** `k` ticks from a reachable world. Within one generation, death is
      final, dead snakes are frozen and no body shrinks. */
  function Run(st: Step, k: nat): (r: Step)
    requires Inv(st.world)
    ensures Inv(r.world)
    ensures r.world.generation >= st.world.generation
    ensures r.world.generation == st.world.generation ==> Within(st.world, r.world)
    decreases k
  {
    if k == 0 then
      WithinReflexive(st.world);
      st
    else
      var next := Tick(st.world, st.rng);
      var r := Run(next, k - 1);
      if r.world.generation == st.world.generation then
        WithinComposes(st.world, next.world, r.world);
        r
      else r
  }

  /** A snake that dies on the food cell still eats: here a five-cell snake
      turns into its own fourth cell, where the food lies, and dies with growth
      pending while the food is drawn anew. */
  lemma DyingSnakeStillEats(g: Rng)
    ensures var s := Snake([Point(5, 5), Point(5, 6), Point(6, 6), Point(6, 5), Point(6, 4)], Right, false, true);
      var t := TakeTurn(s, Point(6, 5), g);
      !t.snake.alive && t.snake.growPending && (t.food, t.rng) == DrawPosition(g)
  {
    var s := Snake([Point(5, 5), Point(5, 6), Point(6, 6), Point(6, 5), Point(6, 4)], Right, false, true);
    var moved := CohortSnake.Update(s);
    assert moved.body == [Point(6, 5), Point(5, 5), Point(5, 6), Point(6, 6), Point(6, 5)];
    assert moved.body[1..][3] == moved.body[0];
  }
}

=== FILE: cohort_snake.dfy ===
/** The `Snake` class of script.js: a body, a heading, a pending-growth flag and
    an alive flag. A dead snake never moves again; a live one refuses an exact
    U-turn. */
module CohortSnake {
  import opened Grid
  import opened Body

  datatype Snake = Snake(body: seq<Point>, direction: Point, growPending: bool, alive: bool)

  /** Every snake starts at the centre of the board. */
  const Centre: Point := Point(Columns / 2, Rows / 2)

  /** What holds of every snake the program builds: a non-empty body, one of
      the four headings, and the shape of a living snake while it lives. */
  predicate Valid(s: Snake) {
    |s.body| >= 1 && IsDirection(s.direction) && (s.alive ==> Sound(s.body))
  }

  /** The constructor: one cell at the centre, heading right, alive. */
  function New(): (s: Snake)
    ensures Valid(s) && s.alive && !s.growPending
    ensures s.body == [Point(10, 10)] && s.direction == Point(1, 0)
  {
    Snake([Centre], Right, false, true)
  }

  /** `update`: a dead snake is left as it is; a live one moves one cell along
      its heading, keeps its tail only if growth was pending, and dies if the
      moved body collides. */
  function Update(s: Snake): (r: Snake)
    requires |s.body| >= 1
    ensures |r.body| >= 1
    ensures !s.alive ==> r == s
    ensures s.alive ==> r.body[0] == Add(s.body[0], s.direction)
    ensures s.alive ==> |r.body| == if s.growPending then |s.body| + 1 else |s.body|
    ensures s.alive ==> r.body[1..] <= s.body
    ensures s.alive ==> !r.growPending
    ensures r.direction == s.direction
    ensures r.alive <==> s.alive && InBounds(r.body[0]) && r.body[0] !in r.body[1..]
  {
    if !s.alive then s
    else
      var moved := Advance(s.body, s.direction, s.growPending);
      Snake(moved, s.direction, false, !Collides(moved))
  }

  /** A valid snake stays valid through `update`; in particular a snake that
      survives the move is still on the board and free of overlaps. */
  lemma UpdateKeepsValid(s: Snake)
    requires Valid(s)
    ensures Valid(Update(s))
  {
    if s.alive {
      AdvanceKeepsSound(s.body, s.direction, s.growPending);
    }
  }

  /** `changeDirection`: the new heading is taken unless it is the exact
      reverse of the current one; nothing but the heading changes. */
  function ChangeDirection(s: Snake, d: Point): (r: Snake)
    ensures r.body == s.body && r.growPending == s.growPending && r.alive == s.alive
    ensures d == Negate(s.direction) ==> r.direction == s.direction
    ensures d != Negate(s.direction) ==> r.direction == d
  {
    if d.x != -s.direction.x || d.y != -s.direction.y then s.(direction := d) else s
  }

  /** With a real heading, the heading after `changeDirection` is never the
      reverse of the heading before, and a listed heading is always kept valid. */
  lemma ChangeDirectionNeverReverses(s: Snake, d: Point)
    requires Valid(s) && IsDirection(d)
    ensures ChangeDirection(s, d).direction != Negate(s.direction)
    ensures ChangeDirection(s, d).direction == d <==> d != Negate(s.direction)
    ensures Valid(ChangeDirection(s, d))
  {
  }

  /** `grow`: only raises the flag; the body is untouched until the next move. */
  function Grow(s: Snake): (r: Snake)
    ensures r.growPending
    ensures r.body == s.body && r.direction == s.direction && r.alive == s.alive
  {
    s.(growPending := true)
  }

  /** A `grow` takes effect on the next `update`: a live snake is then exactly
      one cell longer and the flag is cleared again. */
  lemma GrowTakesEffectOnNextUpdate(s: Snake)
    requires |s.body| >= 1 && s.alive
    ensures |Update(Grow(s)).body| == |s.body| + 1
    ensures Update(Grow(s)).body[1..] == s.body
    ensures !Update(Grow(s)).growPending
  {
    var r := Update(Grow(s));
    assert r.body[1..] <= s.body && |r.body[1..]| == |s.body|;
  }

  /** After a move of a snake of two or more cells, the cell behind the head
      is the one the head just left. */
  lemma UpdateLeavesNeckBehind(s: Snake)
    requires |s.body| >= 1 && s.alive
    requires |Update(s).body| >= 2
    ensures Update(s).body[1] == Add(Update(s).body[0], Negate(Update(s).direction))
  {
    var r := Update(s);
    assert r.body[1] == r.body[1..][0] == s.body[0];
  }

  /** The reason for refusing a U-turn: when the neck is right behind the
      head, no heading `changeDirection` accepts can send the head onto it. */
  lemma NoTurnIntoNeck(s: Snake, d: Point)
    requires Valid(s) && |s.body| >= 2 && IsDirection(d)
    requires s.body[1] == Add(s.body[0], Negate(s.direction))
    ensures Add(s.body[0], ChangeDirection(s, d).direction) != s.body[1]
  {
  }
}

=== FILE: grid.dfy ===
/** The playing field shared by both scripts: a canvas of 400 pixels cut into
    cells of 20 pixels, so a 20 by 20 grid of integer cells, and the four
    headings a snake can take on it. */
module Grid {
  import opened Oracle

  /** A grid cell, or a heading when used as a step. */
  datatype Point = Point(x: int, y: int)

  const CanvasSize: int := 400
  const Scale: int := 20
  const Rows: int := CanvasSize / Scale
  const Columns: int := CanvasSize / Scale

  /** The cell lies on the board: [0, Columns) x [0, Rows). */
  predicate InBounds(p: Point) {
    0 <= p.x < Columns && 0 <= p.y < Rows
  }

  /** The cell one step from `p` along heading `d`. */
  function Add(p: Point, d: Point): Point {
    Point(p.x + d.x, p.y + d.y)
  }

  /** The exact reverse of a heading. */
  function Negate(d: Point): Point {
    Point(-d.x, -d.y)
  }

  const Right: Point := Point(1, 0)
  const Left: Point := Point(-1, 0)
  const Down: Point := Point(0, 1)
  const Up: Point := Point(0, -1)

  /** The headings in the order the source lists them. */
  const Directions: seq<Point> := [Right, Left, Down, Up]

  predicate IsDirection(d: Point) {
    d in Directions
  }

  /** `randomDirection`: one of the four listed headings picked by a draw. */
  function RandomDirection(r: Draw): (d: Point)
    ensures IsDirection(d)
    ensures d.x * d.x + d.y * d.y == 1
  {
    Directions[RandomBelow(r, |Directions|)]
  }

  /** Every heading is the answer of `RandomDirection` for some draw. */
  lemma RandomDirectionCoversAll(d: Point)
    requires IsDirection(d)
    ensures exists r: Draw :: RandomDirection(r) == d
  {
    var i :| 0 <= i < |Directions| && Directions[i] == d;
    RandomBelowCoversAll(i, |Directions|);
    var r: Draw :| RandomBelow(r, |Directions|) == i;
    assert RandomDirection(r) == d;
  }

  /** `Food.randomPosition`: a column draw, then a row draw. */
  function RandomPosition(rx: Draw, ry: Draw): (p: Point)
    ensures InBounds(p)
  {
    Point(RandomBelow(rx, Columns), RandomBelow(ry, Rows))
  }

  /** Every cell of the board is a possible food position. */
  lemma RandomPositionCoversAll(p: Point)
    requires InBounds(p)
    ensures exists rx: Draw, ry: Draw :: RandomPosition(rx, ry) == p
  {
    RandomBelowCoversAll(p.x, Columns);
    RandomBelowCoversAll(p.y, Rows);
    var rx: Draw :| RandomBelow(rx, Columns) == p.x;
    var ry: Draw :| RandomBelow(ry, Rows) == p.y;
    assert RandomPosition(rx, ry) == p;
  }

  /** `new Food()` drawing from the stream: two draws, column first. */
  function DrawPosition(g: Rng): (r: (Point, Rng))
    ensures r.0 == RandomPosition(g.draw(g.next), g.draw(g.next + 1))
    ensures InBounds(r.0)
    ensures r.1.draw == g.draw && r.1.next == g.next + 2
  {
    var (rx, g1) := Next(g);
    var (ry, g2) := Next(g1);
    (RandomPosition(rx, ry), g2)
  }
}

=== FILE: oracle.dfy ===
/** The random source of both scripts: the successive results of `Math.random()`.
    The simulation only ever uses such a draw through `Math.floor(Math.random() * n)`,
    so all that is kept of the distribution is its range. */
module Oracle {

  /** One result of `Math.random()`: a number in [0, 1). */
  type Draw = r: real | 0.0 <= r < 1.0

  /** An endless stream of draws; `next` is the index of the draw the next call returns. */
  datatype Rng = Rng(draw: nat -> Draw, next: nat)

  /** Takes one draw from the stream. */
  function Next(g: Rng): (r: (Draw, Rng))
    ensures r.0 == g.draw(g.next)
    ensures r.1.draw == g.draw && r.1.next == g.next + 1
  {
    (g.draw(g.next), g.(next := g.next + 1))
  }

  /** `Math.floor(r * n)`: the index a draw selects among `n` choices, with the
      product taken exactly rather than rounded to a double. */
  function RandomBelow(r: Draw, n: nat): (i: int)
    requires n > 0
    ensures 0 <= i < n
  {
    assert r * n as real < n as real;
    (r * n as real).Floor
  }

  /** Every one of the `n` choices is selected by some draw. */
  lemma RandomBelowCoversAll(i: int, n: nat)
    requires 0 <= i < n
    ensures exists r: Draw :: RandomBelow(r, n) == i
  {
    var r: real := i as real / n as real;
    assert r * n as real == i as real;
    assert 0.0 <= r < 1.0;
    assert RandomBelow(r, n) == i;
  }
}

=== FILE: solo.dfy ===
/** The controller of script.ts as written: one snake and one food cell. Each
    tick moves the snake, then checks for food, then for a collision, which
    starts a new generation. Eating is broken: the constructor's assignment of
    `false` to `this.grow` hides the `grow` method, so the call `snake.grow()`
    raises a TypeError that ends the game loop for good. */
module Solo {
  import opened Oracle
  import opened Grid
  import opened Body
  import opened SoloSnake

  /** The program's globals `snake`, `food` and `generation`. */
  datatype World = World(snake: Snake, food: Point, generation: int)

  /** The one way the program fails: `snake.grow` is the flag, not the method. */
  datatype Fault = GrowIsNotAFunction

  /** The program between ticks, or stopped by an uncaught error. A thrown
      error leaves `gameLoop` before it schedules the next tick. */
  datatype Outcome = Running(world: World, rng: Rng) | Crashed(fault: Fault)

  /** What holds of every world the program reaches: the snake is a single
      cell on the board whose flag is never raised, and the food is on the board. */
  predicate Inv(w: World) {
    && |w.snake.body| == 1
    && InBounds(w.snake.body[0])
    && !w.snake.grow
    && InBounds(w.food)
    && w.generation >= 1
  }

  /** `setup`: a fresh snake, a fresh food cell, the next generation number. */
  function Setup(generation: int, g: Rng): (r: (World, Rng))
    ensures r.0.snake.body == [Point(10, 10)] && r.0.snake.direction == Point(1, 0) && !r.0.snake.grow
    ensures r.0.food == DrawPosition(g).0 && InBounds(r.0.food)
    ensures r.0.generation == generation + 1
    ensures r.1.draw == g.draw && r.1.next == g.next + 2
  {
    var (food, g1) := DrawPosition(g);
    (World(New(), food, generation + 1), g1)
  }

  /** The controller's `update`: move, then eat (which fails), then reset on a
      collision. */
  function Update(w: World, g: Rng): (r: Outcome)
    requires |w.snake.body| >= 1
    ensures var moved := SoloSnake.Update(w.snake);
      && (r.Crashed? <==> moved.body[0] == w.food)
      && (r.Running? && r.world.generation == w.generation + 1 <==>
            moved.body[0] != w.food && Collides(moved.body))
      && (r.Running? && r.world.generation == w.generation + 1 ==>
            (r.world, r.rng) == Setup(w.generation, g))
      && (r.Running? && r.world.generation != w.generation + 1 ==>
            r.world == World(moved, w.food, w.generation) && r.rng == g)
  {
    var moved := SoloSnake.Update(w.snake);
    if moved.body[0] == w.food then
      Crashed(GrowIsNotAFunction)
    else if Collides(moved.body) then
      var (w', g') := Setup(w.generation, g);
      Running(w', g')
    else
      Running(World(moved, w.food, w.generation), g)
  }

  /** One pass of `gameLoop`: an update while running; nothing once crashed. */
  function Tick(o: Outcome): (r: Outcome)
    requires o.Running? ==> Inv(o.world)
    ensures o.Crashed? ==> r == o
    ensures r.Running? ==> Inv(r.world)
  {
    match o
    case Crashed(_) => o
    case Running(w, g) => Update(w, g)
  }

  /** `k` passes of `gameLoop`. */
  function Run(o: Outcome, k: nat): (r: Outcome)
    requires o.Running? ==> Inv(o.world)
    ensures o.Crashed? ==> r == o
    ensures r.Running? ==> Inv(r.world)
    ensures r.Running? ==> o.Running? && r.world.generation >= o.world.generation
    decreases k
  {
    if k == 0 then o else Tick(Run(o, k - 1))
  }

  /** The program's start: `generation` is 0 and `setup` runs once. */
  function Start(g: Rng): (r: Outcome)
    ensures r.Running? && Inv(r.world) && r.world.generation == 1
  {
    var (w, g1) := Setup(0, g);
    Running(w, g1)
  }

  /** The food lies on row 10 to the right of the start cell, in the path of a
      snake that never turns. */
  predicate FoodAhead(food: Point) {
    food.y == 10 && 10 < food.x
  }

  /** How many ticks a fresh snake survives: until it reaches the food ahead,
      or until it leaves the board at x = 20. */
  function Horizon(food: Point): nat {
    if FoodAhead(food) && food.x < Columns then food.x - 10 else 10
  }

  /** `gameLoop` never turns the snake, so the run is fixed: after `k` ticks
      short of the horizon the head is at (10 + k, 10) and nothing else changed. */
  lemma {:induction false} StraightRun(w: World, g: Rng, k: nat)
    requires w.snake == New() && InBounds(w.food) && w.generation >= 1
    requires k < Horizon(w.food)
    ensures Inv(w)
    ensures Run(Running(w, g), k) == Running(w.(snake := Snake([Point(10 + k, 10)], Right, false)), g)
  {
    if k > 0 {
      StraightRun(w, g, k - 1);
      var prev := w.(snake := Snake([Point(10 + k - 1, 10)], Right, false));
      assert SoloSnake.Update(prev.snake).body == [Point(10 + k, 10)];
    }
  }

  /** The straight run ends at the food ahead: reaching it calls
      `snake.grow()`, which fails, and the game loop stops. */
  lemma StraightRunCrashes(w: World, g: Rng)
    requires w.snake == New() && InBounds(w.food) && w.generation >= 1
    requires FoodAhead(w.food)
    ensures Run(Running(w, g), w.food.x - 10) == Crashed(GrowIsNotAFunction)
  {
    var h := w.food.x - 10;
    StraightRun(w, g, h - 1);
    var prev := w.(snake := Snake([Point(10 + h - 1, 10)], Right, false));
    assert SoloSnake.Update(prev.snake).body == [Point(10 + h, 10)];
  }

  /** With no food ahead, tick 10 takes the head to x = 20 = `columns`, off
      the board, and the game is reset by `setup`. */
  lemma StraightRunResets(w: World, g: Rng)
    requires w.snake == New() && InBounds(w.food) && w.generation >= 1
    requires !FoodAhead(w.food)
    ensures Run(Running(w, g), 10) == Running(Setup(w.generation, g).0, Setup(w.generation, g).1)
  {
    StraightRun(w, g, 9);
    var prev := w.(snake := Snake([Point(19, 10)], Right, false));
    assert SoloSnake.Update(prev.snake).body == [Point(20, 10)];
  }
}

=== FILE: solo_fixed.dfy ===
/** script.ts's controller with `grow` working as its authors meant: the
    method raises the flag, so a meal lengthens the snake on the next move.
    Everything else is as in `Solo`. */
module SoloFixed {
  import opened Oracle
  import opened Grid
  import opened Body
  import opened SoloSnake
  import Solo

  /** The intended `grow`: raises the flag and nothing else. */
  function Grow(s: Snake): (r: Snake)
    ensures r.grow
    ensures r.body == s.body && r.direction == s.direction
  {
    s.(grow := true)
  }

  /** What holds of every world this program reaches: a sound snake, food on
      the board. */
  predicate Inv(w: Solo.World) {
    Sound(w.snake.body) && InBounds(w.food) && w.generation >= 1
  }

  /** `update` with a working `grow`: move, then eat, then reset on a collision. */
  function Update(w: Solo.World, g: Rng): (r: (Solo.World, Rng))
    requires |w.snake.body| >= 1
    ensures |r.0.snake.body| >= 1
    ensures var moved := SoloSnake.Update(w.snake);
      && (r.0.generation == w.generation + 1 <==> Collides(moved.body))
      && (r.0.generation == w.generation + 1 ==>
            r == Solo.Setup(w.generation, if moved.body[0] == w.food then DrawPosition(g).1 else g))
      && (r.0.generation != w.generation + 1 ==>
            && r.0.generation == w.generation
            && r.0.snake.body == moved.body
            && (r.0.snake.grow <==> moved.body[0] == w.food)
            && (moved.body[0] == w.food ==> (r.0.food, r.1) == DrawPosition(g))
            && (moved.body[0] != w.food ==> r.0.food == w.food && r.1 == g))
    ensures Inv(w) ==> Inv(r.0)
  {
    var moved := SoloSnake.Update(w.snake);
    var (fed, food, g1) := if moved.body[0] == w.food then
      var (f, g') := DrawPosition(g);
      (Grow(moved), f, g')
    else (moved, w.food, g);
    if Collides(fed.body) then
      Solo.Setup(w.generation, g1)
    else
      var r := (Solo.World(fed, food, w.generation), g1);
      assert Inv(w) ==> Inv(r.0) by {
        if Inv(w) {
          AdvanceKeepsSound(w.snake.body, w.snake.direction, w.snake.grow);
        }
      }
      r
  }

  /** The intended meaning of eating: the tick that lands on the food raises
      the flag, and the next tick, unless it resets the game, leaves the snake
      one cell longer than before the meal. */
  lemma MealGrowsSnake(w: Solo.World, g: Rng)
    requires |w.snake.body| >= 1
    requires SoloSnake.Update(w.snake).body[0] == w.food
    requires !Collides(SoloSnake.Update(w.snake).body)
    ensures var (w1, g1) := Update(w, g);
      && w1.snake.grow
      && |w1.snake.body| == |w.snake.body| + (if w.snake.grow then 1 else 0)
      && (Update(w1, g1).0.generation == w.generation ==>
            |Update(w1, g1).0.snake.body| == |w1.snake.body| + 1)
  {
  }
}

=== FILE: solo_snake.dfy ===
/** The `Snake` class of script.ts: a body, a heading and a `grow` flag. There
    is no alive flag, the heading is replaced without any check, and collisions
    are left to the controller. */
module SoloSnake {
  import opened Grid
  import opened Body

  datatype Snake = Snake(body: seq<Point>, direction: Point, grow: bool)

  /** The constructor: one cell at (10, 10), heading right, flag down. */
  function New(): (s: Snake)
    ensures s.body == [Point(10, 10)] && s.direction == Point(1, 0) && !s.grow
    ensures Sound(s.body)
  {
    Snake([Point(10, 10)], Right, false)
  }

  /** `update`: moves one cell along the heading, keeping the tail only when
      the flag is up, and lowers the flag. It runs whatever the snake's state. */
  function Update(s: Snake): (r: Snake)
    requires |s.body| >= 1
    ensures |r.body| >= 1
    ensures r.body[0] == Add(s.body[0], s.direction)
    ensures |r.body| == if s.grow then |s.body| + 1 else |s.body|
    ensures r.body[1..] <= s.body
    ensures !r.grow
    ensures r.direction == s.direction
  {
    Snake(Advance(s.body, s.direction, s.grow), s.direction, false)
  }

  /** `changeDirection`: any heading is taken, the exact reverse included. */
  function ChangeDirection(s: Snake, d: Point): (r: Snake)
    ensures r.direction == d
    ensures r.body == s.body && r.grow == s.grow
  {
    s.(direction := d)
  }

  /** `checkCollision` on this snake's body: the same rule as script.js. */
  method CheckCollision(s: Snake) returns (hit: bool)
    requires |s.body| >= 1
    ensures hit <==> !InBounds(s.body[0]) || exists i :: 1 <= i < |s.body| && s.body[i] == s.body[0]
  {
    hit := Body.CheckCollision(s.body);
    if !hit {
      forall i | 1 <= i < |s.body| ensures s.body[i] != s.body[0] {
        assert s.body[i] == s.body[1..][i - 1];
      }
    }
  }

  /** What accepting a U-turn costs: a snake of three or more cells whose neck
      is right behind its head runs into itself on the next move. */
  lemma UTurnIsFatal(s: Snake)
    requires |s.body| >= 3
    requires s.body[1] == Add(s.body[0], Negate(s.direction))
    ensures Collides(Update(ChangeDirection(s, Negate(s.direction))).body)
  {
    var r := Update(ChangeDirection(s, Negate(s.direction)));
    assert r.body[1..][1] == s.body[1];
  }

  /** A two-cell snake with the flag down survives the same U-turn: its tail
      is popped before the head lands on the cell the tail held. */
  lemma UTurnOfTwoCellsIsSafe(s: Snake)
    requires |s.body| == 2 && Sound(s.body) && !s.grow
    requires s.body[1] == Add(s.body[0], Negate(s.direction))
    ensures !Collides(Update(ChangeDirection(s, Negate(s.direction))).body)
  {
    var r := Update(ChangeDirection(s, Negate(s.direction)));
    assert r.body[0] == s.body[1];
    assert r.body[1..] == s.body[..1] == [s.body[0]];
  }

  /** With the flag up the same U-turn is fatal: the tail stays where the head lands. */
  lemma UTurnOfTwoGrowingCellsIsFatal(s: Snake)
    requires |s.body| == 2 && s.grow
    requires s.body[1] == Add(s.body[0], Negate(s.direction))
    ensures Collides(Update(ChangeDirection(s, Negate(s.direction))).body)
  {
    var r := Update(ChangeDirection(s, Negate(s.direction)));
    assert r.body[1..] == s.body;
    assert r.body[1..][1] == r.body[0];
  }
}
